=== FILE: README.md ===
# pyfarm-core enums and logger control logic in Dafny

This project models two parts of pyfarm-core.

- The dual-valued enumeration facility.
  - A `Values` pairs an integer form with a string form.
    It compares equal to either half, and its ordering follows the integer half.
    While `Values.check_uniqueness` is on, constructing a `Values` whose integer form was seen before raises `ValueError`.
  - `Enum` builds a named namespace of `Values` members, plus a `_map` that sends each integer form to its string form and back.
  - `cast_enum(enum, int|str)` projects every member onto one half.
    The model treats any other target type as a `TypeError` (see "## Left out").
  - The shipped registries `WorkState`, `AgentState`, `OperatingSystem` and `UseAgentAddress` are included.
  - Also covered: the platform classification `operating_system` and the module-level flags `OS`, `LINUX`, `MAC`, `WINDOWS` and `POSIX`.
- The control logic of `pyfarm/core/logger.py`.
  - The `pf.` name prefix of `getLogger`.
  - The run-once guard of `config.setup`, with its `reconfigure` and `capture_warnings` switches.
  - The save/restore of `warnings.showwarning` in `captureWarnings`.
  - The colour wrapping of `ColorFormatter.format`.
  - How `config.get` decides between the default configuration, an error, and loading the environment variable.

The enum facility, `operating_system` and the flags are modelled from the assertions of `tests/test_enums.py`, not from the code of `pyfarm/core/enums.py` and `pyfarm/core/sysinfo/system.py`.
Where those assertions leave a case open, the model makes the choice listed under "## Left out".
Where an assertion contradicts the evident meaning of the flag it tests (see Findings), the model follows that meaning.

Python objects become immutable datatypes and exceptions become `Result` values:

- `wrappers.dfy`: `Option` and `Result`.
- `values.dfy`, module `EnumValues`: `Values`, comparisons, conversions and the uniqueness check.
  The class-level flag and seen-set are an explicit `UniquenessState` threaded through construction.
- `enums.dfy`, module `Enums`: `Enum`, its `_map`, and `cast_enum`.
- `registries.dfy`, module `Registries`: the four shipped member tables and the facts proved about them.
- `text.dfy`, module `Text`: `str.startswith` and `str.strip`.
- `system.dfy`, module `System`: `operating_system` and the platform flags.
- `logger.dfy`, module `Logger`: the logger control logic.
  The global `CONFIGURED` flag, the configurations applied so far, `warnings.showwarning` and the saved original are one `LoggingState` record.

## Model

| member | source | states |
|---|---|---|
| EnumValues.Compare | tests/test_enums.py:295-307 | Ordering a `Values` against an integer succeeds, and its answer is that integer comparison applied to the integer half. Ordering it against a string or another `Values` is an error. |
| EnumValues.Equals | tests/test_enums.py:285-293 | `v == w` for another `Values` holds iff they are the same pair. `v == n` holds iff `n` is the integer half, and `v == s` iff `s` is the string half. |
| EnumValues.NotEquals | tests/test_enums.py:290-293 | `v != w` holds iff they are different pairs. `v != n` and `v != s` hold iff the integer or string half differs from the operand. |
| EnumValues.Contains | tests/test_enums.py:309-312 | `o in v` holds iff `o` is the integer half, the string half, or the same pair, according to its kind. |
| EnumValues.ToInt | tests/test_enums.py:314-315 | `int(v)` is the integer that `v` compares equal to. |
| EnumValues.ToStr | tests/test_enums.py:317-318 | `str(v)` is the string that `v` compares equal to. |
| EnumValues.CompareInt | tests/test_enums.py:295-307 | `n < v`, `n <= v`, `n > v` and `n >= v` with an integer on the left give the integer comparison of `n` with the integer half of `v`. |
| EnumValues.OrderingAgreesWithEquality | tests/test_enums.py:295-307 | Against an integer, exactly one of `<`, equality and `>` holds. `<=` is `<` or equal, and `>=` is `>` or equal. |
| EnumValues.ReflectedComparisonAgrees | tests/test_enums.py:295-307 | With an integer on the left, `n < v` agrees with `v > n` and `n > v` with `v < n`. `n <= v` is `n < v` or equality, `n >= v` is `n > v` or equality, and `n <= v` is the negation of `n > v`. |
| EnumValues.ConversionRoundTrip | tests/test_enums.py:314-318 | `int(v)` and `str(v)` rebuild `v`. Each conversion compares equal to `v`. |
| EnumValues.ValuesEqualityIsStructural | tests/test_enums.py:285-286 | Two `Values` are equal exactly when both halves agree. Inequality is the negation of equality. |
| EnumValues.ValuesEqualityByHalves | tests/test_enums.py:285-293 | A `Values` equals an integer iff that is its integer half, and equals a string iff that is its string half. Containment coincides with equality. |
| EnumValues.UnitTestComparisons | tests/test_enums.py:285-318 | Every assertion of the `Values` unit tests holds in the model. |
| EnumValues.NewValues | tests/test_enums.py:276-283 | With the check on, construction fails with the duplicate value exactly when the integer form was seen before, and the state is left unchanged. Otherwise it yields the pair and records the integer. |
| EnumValues.NewValuesAll | tests/test_enums.py:276-283 | On success every value is built from its arguments, all their integers are recorded, and with the check on no argument clashes. On failure the check is on, the error names the first argument whose integer was already seen or repeats an earlier one, and only the integers before it were recorded. |
| EnumValues.NewValuesAllSucceedsIff | tests/test_enums.py:276-283 | A sequence of constructions succeeds iff the check is off, or its integer forms are pairwise distinct and none was seen before. |
| EnumValues.UniquenessScenario | tests/test_enums.py:276-283 | `Values(1, "A")` succeeds with the check off, and a second `Values(1, "A")` fails once the check is turned on. |
| Enums.BuildLookup | tests/test_enums.py:272 | The keys of `_map` are exactly the integer and string halves of the members. Every entry pairs one member's halves in one direction or the other. |
| Enums.LookupIntAt | tests/test_enums.py:272 | When integer forms are distinct, `_map` sends each member's integer form to its string form. |
| Enums.LookupStrAt | tests/test_enums.py:272 | When string forms are distinct, `_map` sends each member's string form to its integer form. |
| Enums.LookupAtMember | tests/test_enums.py:272 | When both halves are injective, `_map` sends each member's halves to each other. |
| Enums.LookupIsBidirectional | tests/test_enums.py:272 | When both halves are injective, looking a key up twice in `_map` returns the key. |
| Enums.MakeEnum | tests/test_enums.py:265-267 | The enum carries its name and exactly the given members, and its `_map` is the lookup of those members. |
| Enums.Member | tests/test_enums.py:266-267 | Attribute access returns the named member when it exists, and nothing otherwise. |
| Enums.CastEnum | tests/test_enums.py:268-272 | `cast_enum` fails iff the target is neither `int` nor `str`. On success it keeps the name, `_map` and member names, and each field is the chosen half of its member. |
| Enums.CastViewsReconstruct | tests/test_enums.py:264-271 | The `int` and `str` views of an enum together rebuild every member. |
| Enums.CastViewsAgreeWithEquality | tests/test_enums.py:264-271 | Every field of either view compares equal to the member it came from. |
| Enums.CastEnumScenario | tests/test_enums.py:264-272 | The `test_cast_enum` assertions hold, including `_map == {"A": -4242, -4242: "A"}`. |
| Registries.ShippedValuesAreUnique | tests/test_enums.py:67-250 | Building all 23 shipped members with the uniqueness check on never raises. |
| Registries.MemberOfRegistryAgrees | tests/test_enums.py:67-250 | In a registry with unique names and halves, each row's member, its `int` and `str` views, and both `_map` directions agree with the row. |
| Registries.RegistryAgrees | tests/test_enums.py:67-250 | The same holds for every row of such a registry at once. |
| Registries.WorkStateRegistryAgrees | tests/test_enums.py:163-250 | The `WorkState` table is unique and every member agrees with its row, with values 100-110. |
| Registries.AgentStateRegistryAgrees | tests/test_enums.py:99-130 | The `AgentState` table is unique and every member agrees with its row, with values 200-203. |
| Registries.OperatingSystemRegistryAgrees | tests/test_enums.py:131-162 | The `OperatingSystem` table is unique and every member agrees with its row, with values 300-303. |
| Registries.UseAgentAddressRegistryAgrees | tests/test_enums.py:67-98 | The `UseAgentAddress` table is unique and every member agrees with its row, with values 310-313. |
| System.PlatformPrefixesExclusive | tests/test_enums.py:253-256 | No platform string starts with two of `linux`, `win` and `darwin`. |
| System.Classify | tests/test_enums.py:253-256 | A platform is Linux, Windows or Mac iff it starts with `linux`, `win` or `darwin` respectively, and Other iff it starts with none of them. |
| System.OperatingSystem | tests/test_enums.py:253-256 | `operating_system` returns the matching member of the string view for each prefix, and `other` when no prefix matches. |
| System.LabelIsRegistryMember | tests/test_enums.py:253-256 | Each kind's label is the member of the `OperatingSystem` string view named after that kind. |
| System.OperatingSystemIsRegistryMember | tests/test_enums.py:253-257 | What `operating_system` returns is a member of the `OperatingSystem` registry's string view. |
| System.OperatingSystemInjective | tests/test_enums.py:253-256 | Two platforms give the same result iff they classify as the same kind. |
| System.Flags | tests/test_enums.py:257-262 | `OS` is `operating_system()`. Each flag holds iff the platform has the matching prefix. The three OS flags exclude each other, and `POSIX` is `LINUX or MAC`. |
| System.OperatingSystemScenario | tests/test_enums.py:253-256 | The four `operating_system` assertions of `test_os` hold. |
| System.OsFlagTestAsWrittenFailsOnMacAndWindows | tests/test_enums.py:259-260 | The flag assertions as written hold iff the platform is neither Mac nor Windows, so they fail on `darwin` and `win32`. |
| System.OsFlagTestCorrectedHolds | tests/test_enums.py:258-260 | With each flag compared against its own member, the assertions hold on every platform. |
| Text.Strip | pyfarm/core/logger.py:149 | The result is empty iff the input is all whitespace in the sense of Python 3 `str.isspace`. Otherwise it is the slice starting after the leading whitespace, with non-space ends and only whitespace after it. |
| Text.StripIdempotent | pyfarm/core/logger.py:149 | Stripping twice is stripping once. |
| Logger.NormalizeName | pyfarm/core/logger.py:199-200 | The result always starts with `pf.`. A prefixed name is unchanged, and otherwise the original name follows the prefix. |
| Logger.NormalizeNameIdempotent | pyfarm/core/logger.py:199-200 | Normalising twice is normalising once. |
| Logger.NormalizeNameKeepsName | pyfarm/core/logger.py:199-200 | The given name is always the tail of the logger name, which is either the name itself or the name plus the three-character prefix. |
| Logger.Format | pyfarm/core/logger.py:94-104 | The formatted text is the level's head, then the base text, then the level's tail. For levels without colours it is the base text itself. |
| Logger.FormatRoundTrip | pyfarm/core/logger.py:94-104 | Removing the level's head and tail from a formatted record gives back the base text. |
| Logger.FormatColoursExactlyFormatsLevels | pyfarm/core/logger.py:94-104 | A level is coloured iff it is DEBUG, WARNING, ERROR or CRITICAL. A coloured record starts with an escape sequence and is longer than the base text, and an INFO record is the base text itself. |
| Logger.CaptureWarnings | pyfarm/core/logger.py:66-83 | Capturing saves the original hook once and installs the redirect. Releasing restores the saved hook and forgets it. Repeating either is a no-op. |
| Logger.CaptureWarningsIdempotent | pyfarm/core/logger.py:76-83 | Capturing twice, or releasing twice, is doing it once. |
| Logger.RepeatedCaptureKeepsOriginal | pyfarm/core/logger.py:76-79 | Any number of captures keeps the hook that was installed before the first one. |
| Logger.CaptureThenReleaseRestores | pyfarm/core/logger.py:76-83 | Capturing and then releasing brings a consistent uncaptured state back exactly. |
| Logger.CaptureWarningsPreservesConsistency | pyfarm/core/logger.py:76-83 | While a hook is saved the redirect is installed, before and after either call. |
| Logger.CaptureWarningsPreservesExactness | pyfarm/core/logger.py:76-83 | A hook is saved iff the redirect is installed, and the saved hook is never the redirect. This holds at import when the original hook is not the redirect, and capture and release both keep it. |
| Logger.GetConfig | pyfarm/core/logger.py:137-165 | An unset variable gives the default configuration. A blank one is the empty-variable error. Otherwise the result is loading the stripped value, with a failure reported as a parse error. |
| Logger.GetConfigIgnoresSurroundingSpace | pyfarm/core/logger.py:149-151 | Surrounding whitespace on the variable does not change the result. |
| Logger.Setup | pyfarm/core/logger.py:167-190 | A call without `reconfigure` after configuring changes nothing. Once past the guard, an error from `get` is raised and leaves the state unchanged. Otherwise the configuration is applied, the flag is set, and warnings are captured only if asked. |
| Logger.SetupRunsOnce | pyfarm/core/logger.py:183-190 | A successful setup followed by a plain setup applies the configuration only once. |
| Logger.ReconfigureAlwaysApplies | pyfarm/core/logger.py:183-186 | After a default setup, a second plain setup applies nothing more, while a second setup with `reconfigure` applies the configuration once more. |
| Logger.SetupPreservesConsistency | pyfarm/core/logger.py:183-190 | Setup keeps both capture invariants: a saved hook means the redirect is installed, and the exact reading (saved iff redirected, never saving the redirect) survives too. |
| Logger.GetLogger | pyfarm/core/logger.py:193-202 | `getLogger` leaves the state a default `setup()` leaves. It succeeds iff logging was already configured or `get` succeeds, and then returns the normalised name with logging configured. When setup raises, the state is unchanged. |
| Logger.GetLoggerConfiguresOnce | pyfarm/core/logger.py:193-202 | After one successful `getLogger`, a later call leaves the state unchanged and returns the normalised name. |
| Logger.EmptyVariableScenario | pyfarm/core/logger.py:146-151 | A variable of only whitespace, a no-break space included, makes setup fail with the empty-variable error and leaves everything as it was. |
| Logger.DefaultConfigurationScenario | pyfarm/core/logger.py:183-202 | With no variable set, `getLogger("agent")` yields `pf.agent`, applies the default configuration once, and captures warnings while keeping the original hook. |

## Left out

- `pyfarm/core/sysinfo/cpu.py`, `flaskapp.py` and `tests/test_files.py` lie outside the modelled core.
- Reading the configuration file, and JSON parsing of the file or of the variable's text (`pyfarm/core/logger.py:153-165`), are the `load` parameter of `Logger.GetConfig`. Which of the two parse errors is raised is folded into one `ConfigParseError`.
- `dictConfig` is modelled as recording the configuration it was given; it is assumed never to fail.
- The colorama initialisation, the base `logging.Formatter` output (the `base` parameter of `Logger.Format`), and the `logging.Logger` object are left out. A logger is modelled by its name only.
- The Python 2.6 fallback branching and the body of `_showwarning` are left out. Installing the redirect is modelled as a hook value.
- Thread safety of the global `CONFIGURED` flag and of the uniqueness set is not modelled; calls are sequential.
- Enums.BuildLookup: if two members shared a half, the surviving `_map` entry would depend on Python's keyword-argument order. The model lets the later member win and proves lookups only for unique halves.
- EnumValues.Equals: the tests compare a `Values` only with an identical pair or a pair differing in both halves (`tests/test_enums.py:286`, `:291`). The model chooses that a pair sharing exactly one half, such as `Values(1, "A") == Values(1, "B")`, is not equal.
- EnumValues.NotEquals: the tests only check `!=` against operands that differ from the `Values` (`tests/test_enums.py:291-293`). The model chooses `!=` to be the negation of `==`, so `Values(1, "A") != "A"` is false. A namedtuple subclass that defines only `__eq__` would inherit tuple inequality, which answers true there.
- EnumValues.Contains: the tests only ask whether a `Values` contains an integer, a string or an identical pair (`tests/test_enums.py:310-312`). The model chooses that containment is the equality rule, so `Values(1, "B") in Values(1, "A")` is false. Plain tuple containment, inherited from a namedtuple, would answer true there.
- Enums.CastEnum: no test calls `cast_enum` with a type other than `int` or `str`. The model chooses to treat any other type as a `TypeError`.
- System.OperatingSystem: `tests/test_enums.py:253-256` compare the result with `OperatingSystem.X` using `==`, which a `_OperatingSystem` `Values` would pass as well as its string. The model chooses to return the string-view member, the string half.
- EnumValues.Compare: the tests never order a `Values` against a string or another `Values`. Doing so is modelled as a `TypeError`.
- Enums.BuildLookup: `_map` is keyed by each member's integer half and its string half. `tests/test_enums.py:272` cannot tell the string half from the member name, because both are `"A"` there; the model reads it as the string half.
- Text.Strip: follows Python 3 `str.strip()`, which also removes the Unicode whitespace `str.isspace` accepts (for example the no-break space). On Python 2 the variable is a byte string and only the six ASCII whitespace characters are removed, so a variable of only `\x1c`-`\x1f` or `\xa0` bytes reaches `load` there instead of raising the empty-variable error.
- Python's `bool` being an `int` subtype (`Values(1, "A") == True`) is not modelled.

## Findings

| source | as written | input that shows it | evidently intended | confidence | as-written member | corrected member |
|---|---|---|---|---|---|---|
| tests/test_enums.py:259-260 | asserts `MAC == (OS == OperatingSystem.WINDOWS)` and `WINDOWS == (OS == OperatingSystem.MAC)` | platform `darwin` (and `win32`): `MAC` is true but `OS == WINDOWS` is false | `MAC == (OS == OperatingSystem.MAC)` and `WINDOWS == (OS == OperatingSystem.WINDOWS)` | not executed | System.OsFlagTestAsWrittenFailsOnMacAndWindows | System.OsFlagTestCorrectedHolds |

=== FILE: enums.dfy ===
/** `Enum` registries of `Values`, the bidirectional `_map` built from their
    members, and `cast_enum`, which projects a registry onto one half. */
module Enums {
  import opened Wrappers
  import opened EnumValues

  /** A key or value of the mixed-type `_map` dictionary, and a field of a
      cast view: either an integer or a string. In Python `1` and `"1"` are
      different keys, as the two constructors here are. */
  datatype Scalar = IntScalar(i: int) | StrScalar(s: string)

  /** A registry: its diagnostic name, its members by name, and `_map`. */
  datatype Enum = Enum(name: string, members: map<string, Values>, lookup: map<Scalar, Scalar>)

  /** The representation `cast_enum` is asked for: `int`, `str`, or any other
      Python type, named for diagnostics. */
  datatype CastTarget = IntTarget | StrTarget | OtherTarget(typeName: string)

  datatype EnumError = InvalidCastType(typeName: string)

  /** A single-representation view of a registry. */
  datatype CastView = CastView(name: string, fields: map<string, Scalar>, lookup: map<Scalar, Scalar>)

  /** Keyword arguments never repeat a name. */
  ghost predicate DistinctNames(entries: seq<(string, Values)>)
  {
    forall a, b :: 0 <= a < b < |entries| ==> entries[a].0 != entries[b].0
  }

  /** Whether `_map` may send `k` to `x` because of some member: the
      member's int to its string, or its string to its int. */
  ghost predicate PairedBy(entries: seq<(string, Values)>, k: Scalar, x: Scalar)
  {
    exists j :: 0 <= j < |entries| && MemberPairs(entries[j].1, k, x)
  }

  predicate MemberPairs(v: Values, k: Scalar, x: Scalar)
  {
    (k == IntScalar(v.intForm) && x == StrScalar(v.strForm))
    || (k == StrScalar(v.strForm) && x == IntScalar(v.intForm))
  }

  /** The keys `_map` must have: both halves of every member. */
  ghost function KeysOf(entries: seq<(string, Values)>): set<Scalar>
  {
    (set j | 0 <= j < |entries| :: IntScalar(entries[j].1.intForm))
    + (set j | 0 <= j < |entries| :: StrScalar(entries[j].1.strForm))
  }

  /** `_map`, filled member by member: `_map[v.int] = v.str` and
      `_map[v.str] = v.int`, a later member overwriting an earlier one. */
  function BuildLookup(entries: seq<(string, Values)>): (r: map<Scalar, Scalar>)
    ensures r.Keys == KeysOf(entries)
    ensures forall k :: k in r ==> PairedBy(entries, k, r[k])
    decreases |entries|
  {
    if entries == [] then
      map[]
    else
      var init := entries[..|entries| - 1];
      var v := entries[|entries| - 1].1;
      var prev := BuildLookup(init);
      KeysOfSnoc(entries);
      PairedBySnoc(entries, prev);
      prev[IntScalar(v.intForm) := StrScalar(v.strForm)][StrScalar(v.strForm) := IntScalar(v.intForm)]
  }

  /** The keys of a longer member list: the keys of its prefix and both
      halves of its last member. */
  lemma KeysOfSnoc(entries: seq<(string, Values)>)
    requires entries != []
    ensures var v := entries[|entries| - 1].1;
            KeysOf(entries) == KeysOf(entries[..|entries| - 1]) + {IntScalar(v.intForm), StrScalar(v.strForm)}
  {
    var init := entries[..|entries| - 1];
    assert forall j :: 0 <= j < |init| ==> init[j] == entries[j];
  }

  /** A pairing justified by a prefix, or by the last member, is justified
      by the whole list. */
  lemma PairedBySnoc(entries: seq<(string, Values)>, prev: map<Scalar, Scalar>)
    requires entries != []
    requires forall k :: k in prev ==> PairedBy(entries[..|entries| - 1], k, prev[k])
    ensures var v := entries[|entries| - 1].1;
            var r := prev[IntScalar(v.intForm) := StrScalar(v.strForm)][StrScalar(v.strForm) := IntScalar(v.intForm)];
            forall k :: k in r ==> PairedBy(entries, k, r[k])
  {
    var init := entries[..|entries| - 1];
    var last := |entries| - 1;
    var v := entries[last].1;
    var r := prev[IntScalar(v.intForm) := StrScalar(v.strForm)][StrScalar(v.strForm) := IntScalar(v.intForm)];
    forall k | k in r ensures PairedBy(entries, k, r[k]) {
      if k == IntScalar(v.intForm) || k == StrScalar(v.strForm) {
        assert MemberPairs(entries[last].1, k, r[k]);
      } else {
        var j :| 0 <= j < |init| && MemberPairs(init[j].1, k, prev[k]);
        assert init[j] == entries[j];
      }
    }
  }

  /** No two members share an integer half, and none share a string half. */
  ghost predicate Injective(entries: seq<(string, Values)>)
  {
    && (forall a, b :: 0 <= a < b < |entries| ==> entries[a].1.intForm != entries[b].1.intForm)
    && (forall a, b :: 0 <= a < b < |entries| ==> entries[a].1.strForm != entries[b].1.strForm)
  }

  /** When no two members share an integer half, `_map` sends member `j`'s
      integer to its string. */
  lemma LookupIntAt(entries: seq<(string, Values)>, j: nat)
    requires j < |entries|
    requires forall a, b :: 0 <= a < b < |entries| ==> entries[a].1.intForm != entries[b].1.intForm
    ensures var m := BuildLookup(entries);
            IntScalar(entries[j].1.intForm) in m && m[IntScalar(entries[j].1.intForm)] == StrScalar(entries[j].1.strForm)
  {
    var m := BuildLookup(entries);
    var k := IntScalar(entries[j].1.intForm);
    assert k in KeysOf(entries);
    var a :| 0 <= a < |entries| && MemberPairs(entries[a].1, k, m[k]);
    assert entries[a].1.intForm == entries[j].1.intForm && m[k] == StrScalar(entries[a].1.strForm);
  }

  /** When no two members share a string half, `_map` sends member `j`'s
      string to its integer. */
  lemma LookupStrAt(entries: seq<(string, Values)>, j: nat)
    requires j < |entries|
    requires forall a, b :: 0 <= a < b < |entries| ==> entries[a].1.strForm != entries[b].1.strForm
    ensures var m := BuildLookup(entries);
            StrScalar(entries[j].1.strForm) in m && m[StrScalar(entries[j].1.strForm)] == IntScalar(entries[j].1.intForm)
  {
    var m := BuildLookup(entries);
    var k := StrScalar(entries[j].1.strForm);
    assert k in KeysOf(entries);
    var a :| 0 <= a < |entries| && MemberPairs(entries[a].1, k, m[k]);
    assert entries[a].1.strForm == entries[j].1.strForm && m[k] == IntScalar(entries[a].1.intForm);
  }

  /** When members' halves are unique, `_map` is exactly the bidirectional
      table at member `j`. */
  lemma LookupAtMember(entries: seq<(string, Values)>, j: nat)
    requires Injective(entries) && j < |entries|
    ensures var m := BuildLookup(entries);
            && IntScalar(entries[j].1.intForm) in m && m[IntScalar(entries[j].1.intForm)] == StrScalar(entries[j].1.strForm)
            && StrScalar(entries[j].1.strForm) in m && m[StrScalar(entries[j].1.strForm)] == IntScalar(entries[j].1.intForm)
  {
    LookupIntAt(entries, j);
    LookupStrAt(entries, j);
  }

  /** The same, for every member at once. */
  lemma LookupIsBidirectional(entries: seq<(string, Values)>)
    requires Injective(entries)
    ensures forall j :: 0 <= j < |entries| ==>
              && BuildLookup(entries)[IntScalar(entries[j].1.intForm)] == StrScalar(entries[j].1.strForm)
              && BuildLookup(entries)[StrScalar(entries[j].1.strForm)] == IntScalar(entries[j].1.intForm)
  {
    forall j | 0 <= j < |entries|
      ensures BuildLookup(entries)[IntScalar(entries[j].1.intForm)] == StrScalar(entries[j].1.strForm)
      ensures BuildLookup(entries)[StrScalar(entries[j].1.strForm)] == IntScalar(entries[j].1.intForm)
    {
      LookupAtMember(entries, j);
    }
  }

  /** The members map built from keyword arguments. */
  function MembersOf(entries: seq<(string, Values)>): (r: map<string, Values>)
    requires DistinctNames(entries)
    ensures r.Keys == set j | 0 <= j < |entries| :: entries[j].0
    ensures forall j :: 0 <= j < |entries| ==> r[entries[j].0] == entries[j].1
  {
    map j | 0 <= j < |entries| :: entries[j].0 := entries[j].1
  }

  /** `Enum(name, **members)`. The members' `Values` were constructed
      beforehand, so uniqueness has already been checked. */
  function MakeEnum(name: string, entries: seq<(string, Values)>): (e: Enum)
    requires DistinctNames(entries)
    ensures e.name == name
    ensures e.members.Keys == set j | 0 <= j < |entries| :: entries[j].0
    ensures forall j :: 0 <= j < |entries| ==> e.members[entries[j].0] == entries[j].1
    ensures e.lookup == BuildLookup(entries)
  {
    Enum(name, MembersOf(entries), BuildLookup(entries))
  }

  /** Attribute access `e.NAME`; a missing name is an AttributeError. */
  function Member(e: Enum, memberName: string): (r: Option<Values>)
    ensures r.Some? <==> memberName in e.members
    ensures r.Some? ==> r.value == e.members[memberName]
  {
    if memberName in e.members then Some(e.members[memberName]) else None
  }

  /** The half of `v` a cast target selects. */
  function Project(v: Values, target: CastTarget): (r: Scalar)
    requires !target.OtherTarget?
  {
    if target == IntTarget then IntScalar(v.intForm) else StrScalar(v.strForm)
  }

  /** `cast_enum(e, int)` / `cast_enum(e, str)`: every member name maps to
      the selected half; `_map` is carried over. Any other type is refused. */
  function CastEnum(e: Enum, target: CastTarget): (r: Result<CastView, EnumError>)
    ensures target.OtherTarget? <==> r.Failure?
    ensures r.Failure? ==> r.error == InvalidCastType(target.typeName)
    ensures r.Success? ==> r.value.name == e.name && r.value.lookup == e.lookup
    ensures r.Success? ==> r.value.fields.Keys == e.members.Keys
    ensures r.Success? && target == IntTarget ==>
              forall n :: n in e.members ==> r.value.fields[n] == IntScalar(e.members[n].intForm)
    ensures r.Success? && target == StrTarget ==>
              forall n :: n in e.members ==> r.value.fields[n] == StrScalar(e.members[n].strForm)
  {
    match target
    case OtherTarget(t) => Failure(InvalidCastType(t))
    case _ => Success(CastView(e.name, map n | n in e.members :: Project(e.members[n], target), e.lookup))
  }

  /** The two views together lose nothing: pairing a member's int view with
      its str view gives back the member. */
  lemma CastViewsReconstruct(e: Enum, memberName: string)
    requires memberName in e.members
    ensures CastEnum(e, IntTarget).Success? && CastEnum(e, StrTarget).Success?
    ensures var iv := CastEnum(e, IntTarget).value.fields[memberName];
            var sv := CastEnum(e, StrTarget).value.fields[memberName];
            iv.IntScalar? && sv.StrScalar? && Values(iv.i, sv.s) == e.members[memberName]
  {
  }

  /** `cast_enum(e, str).NAME` is the string the member equals, and
      `cast_enum(e, int).NAME` the int it equals. */
  lemma CastViewsAgreeWithEquality(e: Enum, memberName: string)
    requires memberName in e.members
    ensures var v := e.members[memberName];
            && Equals(v, StrOperand(CastEnum(e, StrTarget).value.fields[memberName].s))
            && Equals(v, IntOperand(CastEnum(e, IntTarget).value.fields[memberName].i))
  {
  }

  /** The unit test `Enum("e", A=Values(-4242, "A"))` with its casts. */
  lemma CastEnumScenario()
    ensures var e := MakeEnum("e", [("A", Values(-4242, "A"))]);
            && Member(e, "A") == Some(Values(-4242, "A"))
            && CastEnum(e, StrTarget).value.fields["A"] == StrScalar("A")
            && CastEnum(e, IntTarget).value.fields["A"] == IntScalar(-4242)
            && CastEnum(e, IntTarget).value.lookup
               == map[StrScalar("A") := IntScalar(-4242), IntScalar(-4242) := StrScalar("A")]
  {
  }
}

=== FILE: logger.dfy ===
/** The control logic of `pyfarm.core.logger`: name normalisation in
    `getLogger`, the coloured `ColorFormatter`, warning capture, the
    environment-variable decision in `config.get`, and the run-once guard
    of `config.setup`. `dictConfig`, file reading, JSON parsing and the
    base `logging.Formatter` are effects outside the model; they appear as
    opaque values or parameters. */
module Logger {
  import opened Wrappers
  import opened Text

  // ---------------------------------------------------------------------
  // Logger names
  // ---------------------------------------------------------------------

  const NamePrefix: string := "pf."

  /** The name `getLogger` asks `logging` for: `pf.` is added unless the
      name already carries it. */
  function NormalizeName(name: string): (r: string)
    ensures StartsWith(r, NamePrefix)
    ensures StartsWith(name, NamePrefix) ==> r == name
    ensures !StartsWith(name, NamePrefix) ==> r[|NamePrefix|..] == name
  {
    if StartsWith(name, NamePrefix) then name else NamePrefix + name
  }

  /** Normalising twice is normalising once, and a name is left alone
      exactly when it already carries the prefix. */
  lemma NormalizeNameIdempotent(name: string)
    ensures NormalizeName(NormalizeName(name)) == NormalizeName(name)
    ensures NormalizeName(name) == name <==> StartsWith(name, NamePrefix)
  {
  }

  /** The caller's name always survives as the tail of the logger name. */
  lemma NormalizeNameKeepsName(name: string)
    ensures |name| <= |NormalizeName(name)|
    ensures NormalizeName(name)[|NormalizeName(name)| - |name|..] == name
    ensures |NormalizeName(name)| - |name| in {0, |NamePrefix|}
  {
    var r := NormalizeName(name);
    if !StartsWith(name, NamePrefix) {
      assert r[|r| - |name|..] == r[|NamePrefix|..];
    }
  }

  // ---------------------------------------------------------------------
  // ColorFormatter
  // ---------------------------------------------------------------------

  /** The numeric levels of the standard `logging` module. */
  const DEBUG: int := 10
  const INFO: int := 20
  const WARNING: int := 30
  const ERROR: int := 40
  const CRITICAL: int := 50

  /** An ANSI "select graphic rendition" escape: ESC '[' code 'm'. */
  function Sgr(code: string): (r: string)
    ensures |r| == |code| + 3 && r[0] == '\U{1B}'
  {
    "\U{1B}[" + code + "m"
  }

  /** The colorama codes `FORMATS` uses. */
  const StyleDim: string := Sgr("2")
  const StyleBright: string := Sgr("1")
  const StyleResetAll: string := Sgr("0")
  const ForeYellow: string := Sgr("33")
  const ForeRed: string := Sgr("31")
  const ForeReset: string := Sgr("39")

  /** `ColorFormatter.FORMATS`: the head and tail wrapped around a record
      of each coloured level. */
  const Formats: map<int, (string, string)> := map[
    DEBUG := (StyleDim, StyleResetAll),
    WARNING := (ForeYellow, ForeReset),
    ERROR := (ForeRed, ForeReset),
    CRITICAL := (ForeRed + StyleBright, ForeReset + StyleResetAll)
  ]

  /** `FORMATS.get(levelno, ("", ""))`. */
  function HeadTail(level: int): (ht: (string, string))
    ensures level in Formats ==> ht == Formats[level]
    ensures level !in Formats ==> ht == ("", "")
  {
    if level in Formats then Formats[level] else ("", "")
  }

  /** `ColorFormatter.format(record)`, given the text the base `Formatter`
      produced for the record. */
  function Format(level: int, base: string): (r: string)
    ensures |r| == |HeadTail(level).0| + |base| + |HeadTail(level).1|
    ensures r[..|HeadTail(level).0|] == HeadTail(level).0
    ensures r[|HeadTail(level).0|..|HeadTail(level).0| + |base|] == base
    ensures r[|HeadTail(level).0| + |base|..] == HeadTail(level).1
    ensures level !in Formats ==> r == base
  {
    var (head, tail) := HeadTail(level);
    head + base + tail
  }

  /** Recovers the base text from a formatted record by removing the
      level's head and tail, or `None` if they are not there. */
  function Unformat(level: int, text: string): (r: Option<string>)
    ensures r.Some? ==> Format(level, r.value) == text
  {
    var (head, tail) := HeadTail(level);
    if |head| + |tail| <= |text| && text[..|head|] == head && text[|text| - |tail|..] == tail then
      var base := text[|head|..|text| - |tail|];
      assert head + base + tail == text;
      Some(base)
    else
      None
  }

  /** Formatting loses nothing: the base text comes back out. */
  lemma FormatRoundTrip(level: int, base: string)
    ensures Unformat(level, Format(level, base)) == Some(base)
  {
  }

  /** Records of a coloured level start with an escape sequence and are
      longer than their base text; any other level is passed through. */
  lemma FormatColoursExactlyFormatsLevels(level: int, base: string)
    ensures level in Formats ==> |Format(level, base)| > |base| && Format(level, base)[0] == '\U{1B}'
    ensures level in Formats <==> level in {DEBUG, WARNING, ERROR, CRITICAL}
    ensures level == INFO ==> Format(level, base) == base
  {
    if level in Formats {
      var (head, tail) := Formats[level];
      assert head[0] == '\U{1B}' && |head| > 0;
      assert Format(level, base) == head + base + tail;
    }
  }

  // ---------------------------------------------------------------------
  // Logging state: warning capture and configuration
  // ---------------------------------------------------------------------

  /** A value of `warnings.showwarning`: the logging redirect installed by
      `captureWarnings(True)`, or some other handler (the interpreter's
      original among them), identified opaquely. */
  datatype ShowWarning = LoggingRedirect | Handler(id: nat)

  /** A logging configuration dictionary, kept opaque: the shipped
      `DEFAULT_CONFIGURATION`, or one read from the environment. */
  datatype Config = DefaultConfiguration | LoadedConfiguration(id: nat)

  /** What the module-level and class-level globals hold:
      `config.CONFIGURED`, the configurations handed to `dictConfig` so far,
      `warnings.showwarning`, and the saved original handler
      (`_warnings_showwarning`, `None` when nothing is saved). */
  datatype LoggingState = LoggingState(
    configured: bool,
    applied: seq<Config>,
    showwarning: ShowWarning,
    saved: Option<ShowWarning>)

  /** The state at import: nothing configured, no capture in place. */
  function InitialLoggingState(original: ShowWarning): (st: LoggingState)
  {
    LoggingState(false, [], original, None)
  }

  /** While a handler is saved, the redirect is the installed handler. */
  ghost predicate CaptureConsistent(st: LoggingState)
  {
    st.saved.Some? ==> st.showwarning == LoggingRedirect
  }

  /** `captureWarnings(capture)`. Capturing saves the current handler only
      when none is saved and installs the redirect; releasing puts the
      saved handler back and clears the slot, and does nothing when no
      handler is saved. */
  function CaptureWarnings(st: LoggingState, capture: bool): (r: LoggingState)
    ensures r.configured == st.configured && r.applied == st.applied
    ensures st.saved.Some? ==> (capture ==> r == st) && (!capture ==> r.showwarning == st.saved.value)
    ensures st.saved.None? ==> (!capture ==> r == st) && (capture ==> r.saved == Some(st.showwarning))
    ensures capture ==> r.saved.Some? && (CaptureConsistent(st) ==> r.showwarning == LoggingRedirect)
    ensures !capture ==> r.saved.None?
  {
    if capture then
      if st.saved.None? then st.(saved := Some(st.showwarning), showwarning := LoggingRedirect) else st
    else
      if st.saved.Some? then st.(showwarning := st.saved.value, saved := None) else st
  }

  /** Capturing again never overwrites the original handler, and releasing
      twice is releasing once. */
  lemma CaptureWarningsIdempotent(st: LoggingState, capture: bool)
    ensures CaptureWarnings(CaptureWarnings(st, capture), capture) == CaptureWarnings(st, capture)
  {
  }

  /** `captureWarnings(True)` any number of times. */
  function CaptureRepeatedly(st: LoggingState, n: nat): (r: LoggingState)
  {
    if n == 0 then st else CaptureWarnings(CaptureRepeatedly(st, n - 1), true)
  }

  /** However often capture is requested, the slot keeps the handler that
      was installed before the first request. */
  lemma {:induction false} RepeatedCaptureKeepsOriginal(st: LoggingState, n: nat)
    requires st.saved.None? && n > 0
    ensures CaptureRepeatedly(st, n) == CaptureWarnings(st, true)
    ensures CaptureRepeatedly(st, n).saved == Some(st.showwarning)
  {
    if n > 1 {
      RepeatedCaptureKeepsOriginal(st, n - 1);
      CaptureWarningsIdempotent(st, true);
    }
  }

  /** Capturing and then releasing returns the handler to what it was. */
  lemma CaptureThenReleaseRestores(st: LoggingState)
    requires st.saved.None?
    ensures CaptureWarnings(CaptureWarnings(st, true), false) == st
  {
  }

  /** Capture and release keep the redirect installed while a handler is
      saved. */
  lemma CaptureWarningsPreservesConsistency(st: LoggingState, capture: bool)
    requires CaptureConsistent(st)
    ensures CaptureConsistent(CaptureWarnings(st, capture))
  {
  }

  /** The stronger reading: a handler is saved exactly while the redirect
      is installed, and the saved handler is never the redirect itself. */
  ghost predicate CaptureExact(st: LoggingState)
  {
    && (st.saved.Some? <==> st.showwarning == LoggingRedirect)
    && (st.saved.Some? ==> st.saved.value != LoggingRedirect)
  }

  /** Starting from any handler other than the redirect, the stronger
      reading holds, and capture and release both keep it. */
  lemma CaptureWarningsPreservesExactness(st: LoggingState, capture: bool, original: ShowWarning)
    requires CaptureExact(st)
    ensures CaptureExact(CaptureWarnings(st, capture))
    ensures original != LoggingRedirect ==> CaptureExact(InitialLoggingState(original))
  {
  }

  // ---------------------------------------------------------------------
  // config.get and config.setup
  // ---------------------------------------------------------------------

  /** Why reading the configuration source failed: an error from opening
      or parsing it. Which of those it was is opaque here. */
  datatype LoadError = LoadError(message: string)

  datatype LoggerError =
    | EmptyConfigVariable            // ValueError("$PYFARM_LOGGING_CONFIG is empty")
    | ConfigParseError(cause: LoadError)

  /** `config.get()`. `env` is the value of `PYFARM_LOGGING_CONFIG`, `None`
      when the variable is not set; `load` stands for reading the stripped
      value as a path to a JSON file, falling back on parsing it as JSON. */
  function GetConfig(env: Option<string>, load: string -> Result<Config, LoadError>): (r: Result<Config, LoggerError>)
    ensures env.None? ==> r == Success(DefaultConfiguration)
    ensures r == Failure(EmptyConfigVariable) <==> env.Some? && AllSpace(env.value)
    ensures env.Some? && !AllSpace(env.value) ==>
              (load(Strip(env.value)).Success? <==> r.Success?)
              && (r.Success? ==> r.value == load(Strip(env.value)).value)
  {
    if env.None? then
      Success(DefaultConfiguration)
    else
      var text := Strip(env.value);
      if text == [] then
        Failure(EmptyConfigVariable)
      else
        match load(text)
        case Success(c) => Success(c)
        case Failure(e) => Failure(ConfigParseError(e))
  }

  /** Surrounding whitespace in the variable does not matter: the loader
      sees the same text either way. */
  lemma GetConfigIgnoresSurroundingSpace(value: string, load: string -> Result<Config, LoadError>)
    ensures GetConfig(Some(value), load) == GetConfig(Some(Strip(value)), load)
  {
    StripIdempotent(value);
  }

  /** `config.setup(capture_warnings, reconfigure)`: returns the new state
      and the error raised, if any. A raised error leaves every global as
      it was. */
  function Setup(st: LoggingState, env: Option<string>, load: string -> Result<Config, LoadError>,
                 captureWarnings: bool, reconfigure: bool): (out: (LoggingState, Option<LoggerError>))
    ensures !reconfigure && st.configured ==> out == (st, None)
    ensures out.1.Some? ==> out.0 == st && GetConfig(env, load).Failure?
    ensures (reconfigure || !st.configured) && GetConfig(env, load).Failure? ==>
              out == (st, Some(GetConfig(env, load).error))
    ensures (reconfigure || !st.configured) && GetConfig(env, load).Success? ==>
              && out.1.None?
              && out.0.configured
              && out.0.applied == st.applied + [GetConfig(env, load).value]
              && (captureWarnings ==>
                    out.0.showwarning == CaptureWarnings(st, true).showwarning
                    && out.0.saved == CaptureWarnings(st, true).saved)
              && (!captureWarnings ==> out.0.saved == st.saved && out.0.showwarning == st.showwarning)
  {
    if !reconfigure && st.configured then
      (st, None)
    else
      match GetConfig(env, load)
      case Failure(e) => (st, Some(e))
      case Success(c) =>
        var st1 := st.(applied := st.applied + [c]);
        var st2 := if captureWarnings then CaptureWarnings(st1, true) else st1;
        (st2.(configured := true), None)
  }

  /** A setup that passed the guard leaves `CONFIGURED` set, so a second
      default call changes nothing. */
  lemma SetupRunsOnce(st: LoggingState, env: Option<string>, load: string -> Result<Config, LoadError>,
                      captureWarnings: bool)
    requires Setup(st, env, load, captureWarnings, false).1.None?
    ensures var st1 := Setup(st, env, load, captureWarnings, false).0;
            st1.configured && Setup(st1, env, load, true, false) == (st1, None)
  {
  }

  /** `reconfigure=True` passes the guard that stops a plain call: after a
      default setup, a reconfiguring one hands the configuration to
      `dictConfig` once more. */
  lemma ReconfigureAlwaysApplies(st: LoggingState, env: Option<string>, load: string -> Result<Config, LoadError>,
                                 captureWarnings: bool)
    requires GetConfig(env, load).Success?
    ensures var c := GetConfig(env, load).value;
            var st1 := Setup(st, env, load, captureWarnings, false).0;
            && Setup(st1, env, load, captureWarnings, false).0.applied == st1.applied
            && Setup(st1, env, load, captureWarnings, true).0.applied
               == st.applied + (if st.configured then [] else [c]) + [c]
  {
  }

  /** Setup keeps the capture state consistent. */
  lemma SetupPreservesConsistency(st: LoggingState, env: Option<string>, load: string -> Result<Config, LoadError>,
                                  captureWarnings: bool, reconfigure: bool)
    requires CaptureConsistent(st)
    ensures CaptureConsistent(Setup(st, env, load, captureWarnings, reconfigure).0)
    ensures CaptureExact(st) ==> CaptureExact(Setup(st, env, load, captureWarnings, reconfigure).0)
  {
  }

  /** `getLogger(name)`: runs the default `config.setup()`, which may raise,
      then names the logger. */
  function GetLogger(st: LoggingState, env: Option<string>, load: string -> Result<Config, LoadError>,
                     name: string): (out: (LoggingState, Result<string, LoggerError>))
    ensures out.1.Success? ==> StartsWith(out.1.value, NamePrefix) && out.0.configured
    ensures out.1.Success? ==> out.1.value == NormalizeName(name)
    ensures out.0 == Setup(st, env, load, true, false).0
    ensures out.1.Success? <==> st.configured || GetConfig(env, load).Success?
    ensures out.1.Failure? ==> out.0 == st
  {
    var (st1, err) := Setup(st, env, load, true, false);
    if err.Some? then (st1, Failure(err.value)) else (st1, Success(NormalizeName(name)))
  }

  /** Once one `getLogger` call has configured logging, later calls apply no
      further configuration and leave the state alone. */
  lemma GetLoggerConfiguresOnce(st: LoggingState, env: Option<string>, load: string -> Result<Config, LoadError>,
                                a: string, b: string)
    requires GetLogger(st, env, load, a).1.Success?
    ensures var st1 := GetLogger(st, env, load, a).0;
            GetLogger(st1, env, load, b) == (st1, Success(NormalizeName(b)))
  {
  }

  /** From a fresh import with the variable set to whitespace only, the
      first `getLogger` raises and nothing is configured. */
  lemma EmptyVariableScenario(original: ShowWarning, load: string -> Result<Config, LoadError>)
    ensures GetLogger(InitialLoggingState(original), Some(" \t\n\U{A0}"), load, "agent")
         == (InitialLoggingState(original), Failure(EmptyConfigVariable))
  {
    assert AllSpace(" \t\n\U{A0}");
  }

  /** From a fresh import without the variable, `getLogger("agent")`
      configures with the default dictionary, captures warnings and names
      the logger `pf.agent`. */
  lemma DefaultConfigurationScenario(original: ShowWarning, load: string -> Result<Config, LoadError>)
    ensures var (st, r) := GetLogger(InitialLoggingState(original), None, load, "agent");
            && r == Success("pf.agent")
            && st == LoggingState(true, [DefaultConfiguration], LoggingRedirect, Some(original))
  {
    assert !StartsWith("agent", NamePrefix) by {
      assert "agent"[0] != NamePrefix[0];
    }
    assert NamePrefix + "agent" == "pf.agent";
  }
}

=== FILE: registries.dfy ===
/** The registries the package ships (`_WorkState`, `_AgentState`,
    `_OperatingSystem`, `_UseAgentAddress`) with their string views
    (`WorkState`, ...) and integer views (`DBWorkState`, ...). */
module Registries {
  import opened Wrappers
  import opened EnumValues
  import opened Enums

  /** One keyword argument of an `Enum(...)` call: `NAME=Values(i, s)`. */
  datatype MemberSpec = MemberSpec(name: string, intForm: int, strForm: string)

  const WorkStateSpec: seq<MemberSpec> := [
    MemberSpec("PAUSED", 100, "paused"),
    MemberSpec("QUEUED", 101, "queued"),
    MemberSpec("BLOCKED", 102, "blocked"),
    MemberSpec("ALLOC", 103, "alloc"),
    MemberSpec("ASSIGN", 104, "assign"),
    MemberSpec("RUNNING", 105, "running"),
    MemberSpec("DONE", 106, "done"),
    MemberSpec("FAILED", 107, "failed"),
    MemberSpec("JOBTYPE_FAILED_IMPORT", 108, "jobtype_failed_import"),
    MemberSpec("JOBTYPE_INVALID_CLASS", 109, "jobtype_invalid_class"),
    MemberSpec("NO_SUCH_COMMAND", 110, "no_such_command")
  ]

  const AgentStateSpec: seq<MemberSpec> := [
    MemberSpec("DISABLED", 200, "disabled"),
    MemberSpec("OFFLINE", 201, "offline"),
    MemberSpec("ONLINE", 202, "online"),
    MemberSpec("RUNNING", 203, "running")
  ]

  const OperatingSystemSpec: seq<MemberSpec> := [
    MemberSpec("LINUX", 300, "linux"),
    MemberSpec("WINDOWS", 301, "windows"),
    MemberSpec("MAC", 302, "mac"),
    MemberSpec("OTHER", 303, "other")
  ]

  const UseAgentAddressSpec: seq<MemberSpec> := [
    MemberSpec("LOCAL", 310, "local"),
    MemberSpec("REMOTE", 311, "remote"),
    MemberSpec("HOSTNAME", 312, "hostname"),
    MemberSpec("PASSIVE", 313, "passive")
  ]

  /** The `Values(i, s)` constructor arguments of a registry, in order. */
  function ArgsOf(spec: seq<MemberSpec>): (r: seq<(int, string)>)
    ensures |r| == |spec|
    ensures forall k :: 0 <= k < |spec| ==> r[k] == (spec[k].intForm, spec[k].strForm)
  {
    seq(|spec|, k requires 0 <= k < |spec| => (spec[k].intForm, spec[k].strForm))
  }

  /** The keyword arguments of a registry once each `Values` is built. */
  function EntriesOf(spec: seq<MemberSpec>): (r: seq<(string, Values)>)
    ensures |r| == |spec|
    ensures forall k :: 0 <= k < |spec| ==> r[k] == (spec[k].name, Values(spec[k].intForm, spec[k].strForm))
  {
    seq(|spec|, k requires 0 <= k < |spec| => (spec[k].name, Values(spec[k].intForm, spec[k].strForm)))
  }

  /** Integer halves strictly increase from one member to the next. */
  ghost predicate Ascending(xs: seq<int>)
  {
    forall k :: 0 < k < |xs| ==> xs[k - 1] < xs[k]
  }

  lemma {:induction false} AscendingIsDistinct(xs: seq<int>)
    requires Ascending(xs)
    ensures Distinct(xs)
  {
    if |xs| > 1 {
      var init := xs[..|xs| - 1];
      assert Ascending(init) by {
        forall k | 0 < k < |init| ensures init[k - 1] < init[k] {
          assert init[k - 1] == xs[k - 1] && init[k] == xs[k];
        }
      }
      AscendingIsDistinct(init);
      AscendingBelowLast(xs, |xs| - 1);
      forall a, b | 0 <= a < b < |xs| ensures xs[a] != xs[b] {
        if b < |xs| - 1 {
          assert init[a] == xs[a] && init[b] == xs[b];
        }
      }
    }
  }

  /** In an ascending sequence every element before position `n` is below
      the element at `n`. */
  lemma {:induction false} AscendingBelowLast(xs: seq<int>, n: nat)
    requires Ascending(xs) && n < |xs|
    ensures forall a :: 0 <= a < n ==> xs[a] < xs[n]
    decreases n
  {
    if n > 0 {
      AscendingBelowLast(xs, n - 1);
    }
  }

  /** Every argument the four shipped registries pass to `Values`, taken
      in ascending order of the integer half. Whether the batch constructs
      without error does not depend on that order: `NewValuesAllSucceedsIff`
      asks only that the integers be pairwise distinct. */
  function ShippedArgs(): (r: seq<(int, string)>)
    ensures |r| == 23
  {
    ArgsOf(WorkStateSpec + AgentStateSpec + OperatingSystemSpec + UseAgentAddressSpec)
  }

  /** Loading the module constructs every shipped `Values` with checking on;
      the uniqueness check is global across registries, and no shipped
      integer collides with another, so loading raises nothing. */
  lemma ShippedValuesAreUnique()
    ensures NewValuesAll(InitialState, ShippedArgs()).1.Success?
  {
    var args := ShippedArgs();
    var ints := IntsOf(args);
    forall k | 0 < k < |ints| ensures ints[k - 1] < ints[k] {
      assert ints[k - 1] == args[k - 1].0 && ints[k] == args[k].0;
    }
    AscendingIsDistinct(ints);
    NewValuesAllSucceedsIff(InitialState, args);
  }

  /** Member names, integer halves and string halves are each unique. */
  ghost predicate UniqueSpec(spec: seq<MemberSpec>)
  {
    && (forall a, b :: 0 <= a < b < |spec| ==> spec[a].name != spec[b].name)
    && (forall a, b :: 0 <= a < b < |spec| ==> spec[a].intForm != spec[b].intForm)
    && (forall a, b :: 0 <= a < b < |spec| ==> spec[a].strForm != spec[b].strForm)
  }

  /** `Enum(name, NAME=Values(i, s), ...)` for a table of members. */
  function Registry(name: string, spec: seq<MemberSpec>): (e: Enum)
    requires UniqueSpec(spec)
    ensures e.members.Keys == set k | 0 <= k < |spec| :: spec[k].name
  {
    var entries := EntriesOf(spec);
    assert forall k :: 0 <= k < |spec| ==> entries[k].0 == spec[k].name;
    MakeEnum(name, entries)
  }

  /** What the generated unit test checks of each member, and what `_map`
      holds for it: `_X.NAME.int`, `_X.NAME.str`, `X.NAME` (string view),
      `DBX.NAME` (integer view), and both directions of `_map`. */
  ghost predicate MemberAgrees(e: Enum, m: MemberSpec)
  {
    && Member(e, m.name) == Some(Values(m.intForm, m.strForm))
    && CastEnum(e, StrTarget).value.fields[m.name] == StrScalar(m.strForm)
    && CastEnum(e, IntTarget).value.fields[m.name] == IntScalar(m.intForm)
    && IntScalar(m.intForm) in e.lookup && e.lookup[IntScalar(m.intForm)] == StrScalar(m.strForm)
    && StrScalar(m.strForm) in e.lookup && e.lookup[StrScalar(m.strForm)] == IntScalar(m.intForm)
  }

  /** Unique names and halves in the table give unique halves among the
      registry's keyword arguments. */
  lemma UniqueSpecIsInjective(spec: seq<MemberSpec>)
    requires UniqueSpec(spec)
    ensures Injective(EntriesOf(spec))
  {
    var entries := EntriesOf(spec);
    forall a, b | 0 <= a < b < |entries|
      ensures entries[a].1.intForm != entries[b].1.intForm
      ensures entries[a].1.strForm != entries[b].1.strForm
    {
      assert entries[a].1 == Values(spec[a].intForm, spec[a].strForm);
      assert entries[b].1 == Values(spec[b].intForm, spec[b].strForm);
    }
  }

  /** Member `k` of a registry built from a unique table agrees with its
      row in the raw registry, both views and `_map`. */
  lemma MemberOfRegistryAgrees(name: string, spec: seq<MemberSpec>, k: nat)
    requires UniqueSpec(spec) && k < |spec|
    ensures MemberAgrees(Registry(name, spec), spec[k])
  {
    var entries := EntriesOf(spec);
    UniqueSpecIsInjective(spec);
    LookupAtMember(entries, k);
    var m := spec[k];
    assert entries[k] == (m.name, Values(m.intForm, m.strForm));
    var e := Registry(name, spec);
    assert e.members[m.name] == Values(m.intForm, m.strForm);
    assert e.lookup == BuildLookup(entries);
    assert CastEnum(e, StrTarget).value.fields[m.name] == StrScalar(m.strForm);
    assert CastEnum(e, IntTarget).value.fields[m.name] == IntScalar(m.intForm);
  }

  /** Every member of a registry built from a unique table agrees. */
  lemma RegistryAgrees(name: string, spec: seq<MemberSpec>)
    requires UniqueSpec(spec)
    ensures forall k :: 0 <= k < |spec| ==> MemberAgrees(Registry(name, spec), spec[k])
  {
    forall k | 0 <= k < |spec| ensures MemberAgrees(Registry(name, spec), spec[k]) {
      MemberOfRegistryAgrees(name, spec, k);
    }
  }

  /** No two rows of the shipped `_WorkState` table share a name, an integer or
      a string. */
  lemma WorkStateSpecUnique()
    ensures UniqueSpec(WorkStateSpec)
  {
    forall a, b | 0 <= a < b < |WorkStateSpec|
      ensures WorkStateSpec[a].name != WorkStateSpec[b].name
      ensures WorkStateSpec[a].intForm != WorkStateSpec[b].intForm
      ensures WorkStateSpec[a].strForm != WorkStateSpec[b].strForm
    {
    }
  }

  /** `_WorkState`, `WorkState` and `DBWorkState` agree with the shipped table, member by member. */
  lemma WorkStateRegistryAgrees()
    ensures UniqueSpec(WorkStateSpec)
    ensures forall k :: 0 <= k < |WorkStateSpec| ==> MemberAgrees(Registry("WorkState", WorkStateSpec), WorkStateSpec[k])
  {
    WorkStateSpecUnique();
    RegistryAgrees("WorkState", WorkStateSpec);
  }

  /** No two rows of the shipped `_AgentState` table share a name, an integer or
      a string. */
  lemma AgentStateSpecUnique()
    ensures UniqueSpec(AgentStateSpec)
  {
    forall a, b | 0 <= a < b < |AgentStateSpec|
      ensures AgentStateSpec[a].name != AgentStateSpec[b].name
      ensures AgentStateSpec[a].intForm != AgentStateSpec[b].intForm
      ensures AgentStateSpec[a].strForm != AgentStateSpec[b].strForm
    {
    }
  }

  /** `_AgentState`, `AgentState` and `DBAgentState` agree with the shipped table, member by member. */
  lemma AgentStateRegistryAgrees()
    ensures UniqueSpec(AgentStateSpec)
    ensures forall k :: 0 <= k < |AgentStateSpec| ==> MemberAgrees(Registry("AgentState", AgentStateSpec), AgentStateSpec[k])
  {
    AgentStateSpecUnique();
    RegistryAgrees("AgentState", AgentStateSpec);
  }

  /** No two rows of the shipped `_OperatingSystem` table share a name, an integer or
      a string. */
  lemma OperatingSystemSpecUnique()
    ensures UniqueSpec(OperatingSystemSpec)
  {
    forall a, b | 0 <= a < b < |OperatingSystemSpec|
      ensures OperatingSystemSpec[a].name != OperatingSystemSpec[b].name
      ensures OperatingSystemSpec[a].intForm != OperatingSystemSpec[b].intForm
      ensures OperatingSystemSpec[a].strForm != OperatingSystemSpec[b].strForm
    {
    }
  }

  /** `_OperatingSystem`, `OperatingSystem` and `DBOperatingSystem` agree with the shipped table, member by member. */
  lemma OperatingSystemRegistryAgrees()
    ensures UniqueSpec(OperatingSystemSpec)
    ensures forall k :: 0 <= k < |OperatingSystemSpec| ==> MemberAgrees(Registry("OperatingSystem", OperatingSystemSpec), OperatingSystemSpec[k])
  {
    OperatingSystemSpecUnique();
    RegistryAgrees("OperatingSystem", OperatingSystemSpec);
  }

  /** No two rows of the shipped `_UseAgentAddress` table share a name, an integer or
      a string. */
  lemma UseAgentAddressSpecUnique()
    ensures UniqueSpec(UseAgentAddressSpec)
  {
    forall a, b | 0 <= a < b < |UseAgentAddressSpec|
      ensures UseAgentAddressSpec[a].name != UseAgentAddressSpec[b].name
      ensures UseAgentAddressSpec[a].intForm != UseAgentAddressSpec[b].intForm
      ensures UseAgentAddressSpec[a].strForm != UseAgentAddressSpec[b].strForm
    {
    }
  }

  /** `_UseAgentAddress`, `UseAgentAddress` and `DBUseAgentAddress` agree with the shipped table, member by member. */
  lemma UseAgentAddressRegistryAgrees()
    ensures UniqueSpec(UseAgentAddressSpec)
    ensures forall k :: 0 <= k < |UseAgentAddressSpec| ==> MemberAgrees(Registry("UseAgentAddress", UseAgentAddressSpec), UseAgentAddressSpec[k])
  {
    UseAgentAddressSpecUnique();
    RegistryAgrees("UseAgentAddress", UseAgentAddressSpec);
  }
}

=== FILE: system.dfy ===
/** `operating_system`: classification of a platform identifier (what
    `sys.platform` reports) into the `OperatingSystem` registry, and the
    module-level flags `OS`, `LINUX`, `MAC`, `WINDOWS` and `POSIX`. */
module System {
  import opened Text
  import opened Enums
  import opened Registries

  datatype OsKind = Linux | Windows | Mac | Other

  /** At most one of the three recognised prefixes can start a string. */
  lemma PlatformPrefixesExclusive(platform: string)
    ensures !(StartsWith(platform, "linux") && StartsWith(platform, "win"))
    ensures !(StartsWith(platform, "linux") && StartsWith(platform, "darwin"))
    ensures !(StartsWith(platform, "win") && StartsWith(platform, "darwin"))
  {
    if StartsWith(platform, "linux") {
      assert platform[0] == "linux"[0];
    }
    if StartsWith(platform, "win") {
      assert platform[0] == "win"[0];
    }
  }

  /** The prefix tests. Because the prefixes exclude each other, the order
      they are tried in does not matter: each kind is chosen exactly when
      its own prefix is present. */
  function Classify(platform: string): (k: OsKind)
    ensures k == Linux <==> StartsWith(platform, "linux")
    ensures k == Windows <==> StartsWith(platform, "win")
    ensures k == Mac <==> StartsWith(platform, "darwin")
    ensures k == Other <==>
              !StartsWith(platform, "linux") && !StartsWith(platform, "win") && !StartsWith(platform, "darwin")
  {
    PlatformPrefixesExclusive(platform);
    if StartsWith(platform, "linux") then Linux
    else if StartsWith(platform, "win") then Windows
    else if StartsWith(platform, "darwin") then Mac
    else Other
  }

  /** The member of the `OperatingSystem` registry standing for a kind. */
  function MemberName(k: OsKind): (name: string)
  {
    match k
    case Linux => "LINUX"
    case Windows => "WINDOWS"
    case Mac => "MAC"
    case Other => "OTHER"
  }

  /** `OperatingSystem.LINUX` and so on: the string half of each member of
      the shipped `_OperatingSystem` table. */
  function Label(k: OsKind): (text: string)
  {
    match k
    case Linux => "linux"
    case Windows => "windows"
    case Mac => "mac"
    case Other => "other"
  }

  /** `operating_system(platform)`: the `OperatingSystem` member the
      platform identifier classifies as. */
  function OperatingSystem(platform: string): (r: Scalar)
    ensures StartsWith(platform, "linux") ==> r == StrScalar("linux")
    ensures StartsWith(platform, "win") ==> r == StrScalar("windows")
    ensures StartsWith(platform, "darwin") ==> r == StrScalar("mac")
    ensures Classify(platform) == Other ==> r == StrScalar("other")
  {
    StrScalar(Label(Classify(platform)))
  }

  /** The label of each kind is the member of the string view
      `OperatingSystem = cast_enum(_OperatingSystem, str)` named after the
      kind. */
  lemma LabelIsRegistryMember(k: OsKind)
    ensures UniqueSpec(OperatingSystemSpec)
    ensures var view := CastEnum(Registry("OperatingSystem", OperatingSystemSpec), StrTarget).value;
            MemberName(k) in view.fields && view.fields[MemberName(k)] == StrScalar(Label(k))
  {
    OperatingSystemSpecUnique();
    var row := match k
      case Linux => 0
      case Windows => 1
      case Mac => 2
      case Other => 3;
    assert OperatingSystemSpec[row] == MemberSpec(MemberName(k), 300 + row, Label(k));
    MemberOfRegistryAgrees("OperatingSystem", OperatingSystemSpec, row);
  }

  /** So what `operating_system` returns is that member of the view. */
  lemma OperatingSystemIsRegistryMember(platform: string)
    ensures UniqueSpec(OperatingSystemSpec)
    ensures var view := CastEnum(Registry("OperatingSystem", OperatingSystemSpec), StrTarget).value;
            MemberName(Classify(platform)) in view.fields
            && view.fields[MemberName(Classify(platform))] == OperatingSystem(platform)
  {
    LabelIsRegistryMember(Classify(platform));
  }

  /** `operating_system` sends different kinds to different members. */
  lemma OperatingSystemInjective(p: string, q: string)
    ensures OperatingSystem(p) == OperatingSystem(q) <==> Classify(p) == Classify(q)
  {
  }

  /** The module-level constants computed once from the running platform. */
  datatype PlatformFlags = PlatformFlags(os: Scalar, linux: bool, mac: bool, windows: bool, posix: bool)

  /** `OS = operating_system()`, `LINUX = OS == OperatingSystem.LINUX`, and
      so on; `POSIX` is `OS in (OperatingSystem.LINUX, OperatingSystem.MAC)`.
      Each flag holds exactly when the platform has the matching prefix; at
      most one of them holds, and `POSIX` is `LINUX or MAC`. */
  function Flags(platform: string): (f: PlatformFlags)
    ensures f.os == OperatingSystem(platform)
    ensures f.linux <==> StartsWith(platform, "linux")
    ensures f.windows <==> StartsWith(platform, "win")
    ensures f.mac <==> StartsWith(platform, "darwin")
    ensures f.posix <==> f.linux || f.mac
    ensures !(f.linux && f.mac) && !(f.linux && f.windows) && !(f.mac && f.windows)
    ensures f.posix ==> !f.windows
  {
    var os := OperatingSystem(platform);
    PlatformFlags(
      os,
      os == StrScalar(Label(Linux)),
      os == StrScalar(Label(Mac)),
      os == StrScalar(Label(Windows)),
      os == StrScalar(Label(Linux)) || os == StrScalar(Label(Mac)))
  }

  /** The `operating_system` assertions of the OS unit test. */
  lemma OperatingSystemScenario()
    ensures OperatingSystem("linux") == StrScalar("linux")
    ensures OperatingSystem("win") == StrScalar("windows")
    ensures OperatingSystem("darwin") == StrScalar("mac")
    ensures OperatingSystem("FOO") == StrScalar("other")
  {
    assert StartsWith("linux", "linux") && StartsWith("darwin", "darwin") && StartsWith("win", "win");
    assert !StartsWith("FOO", "linux") && !StartsWith("FOO", "win") && !StartsWith("FOO", "darwin") by {
      assert "FOO"[0] != "linux"[0];
      assert "FOO"[0] != "win"[0];
      assert "FOO"[0] != "darwin"[0];
    }
  }

  /** The flag assertions of the OS unit test as written: `MAC` compared
      with `OS == WINDOWS` and `WINDOWS` with `OS == MAC`. */
  predicate OsFlagTestAsWritten(platform: string)
  {
    var f := Flags(platform);
    && f.linux == (f.os == StrScalar(Label(Linux)))
    && f.mac == (f.os == StrScalar(Label(Windows)))
    && f.windows == (f.os == StrScalar(Label(Mac)))
  }

  /** The same assertions with each flag compared with its own kind. */
  predicate OsFlagTestCorrected(platform: string)
  {
    var f := Flags(platform);
    && f.linux == (f.os == StrScalar(Label(Linux)))
    && f.mac == (f.os == StrScalar(Label(Mac)))
    && f.windows == (f.os == StrScalar(Label(Windows)))
  }

  /** As written, the assertions hold exactly on platforms that are neither
      Mac nor Windows: they fail on "darwin" and on "win32". */
  lemma OsFlagTestAsWrittenFailsOnMacAndWindows(platform: string)
    ensures OsFlagTestAsWritten(platform)
        <==> !StartsWith(platform, "darwin") && !StartsWith(platform, "win")
    ensures !OsFlagTestAsWritten("darwin") && !OsFlagTestAsWritten("win32")
    ensures OsFlagTestAsWritten("linux2")
  {
    assert StartsWith("darwin", "darwin") && StartsWith("win32", "win") && StartsWith("linux2", "linux");
  }

  /** With each flag compared with its own kind, the assertions hold on
      every platform. */
  lemma OsFlagTestCorrectedHolds(platform: string)
    ensures OsFlagTestCorrected(platform)
    ensures OsFlagTestCorrected("darwin") && OsFlagTestCorrected("win32")
  {
  }
}

=== FILE: text.dfy ===
/** The two Python string operations the core relies on: `str.startswith`
    and `str.strip()` on a Python 3 `str`, whose whitespace is every
    character `str.isspace` accepts. */
module Text {

  /** `s.startswith(prefix)`. */
  predicate StartsWith(s: string, prefix: string)
  {
    |prefix| <= |s| && s[..|prefix|] == prefix
  }

  /** Python 3 `str.isspace` on one character: the ASCII controls tab to
      carriage return, the four information separators, space, next line,
      no-break space and the Unicode space separators and line/paragraph
      separators. */
  predicate IsSpace(c: char)
  {
    || ('\t' <= c <= '\r')
    || ('\U{1C}' <= c <= ' ')
    || c == '\U{85}' || c == '\U{A0}' || c == '\U{1680}'
    || ('\U{2000}' <= c <= '\U{200A}')
    || c == '\U{2028}' || c == '\U{2029}' || c == '\U{202F}' || c == '\U{205F}' || c == '\U{3000}'
  }

  /** Every character of `s` is whitespace (true of the empty string). */
  predicate AllSpace(s: string)
  {
    forall j :: 0 <= j < |s| ==> IsSpace(s[j])
  }

  /** The length of the leading run of whitespace. */
  function LeadingSpace(s: string): (n: nat)
    ensures n <= |s|
    ensures AllSpace(s[..n])
    ensures n < |s| ==> !IsSpace(s[n])
  {
    if s == [] || !IsSpace(s[0]) then
      0
    else
      var n := 1 + LeadingSpace(s[1..]);
      assert forall j :: 1 <= j < n ==> s[..n][j] == s[1..][..n - 1][j - 1];
      n
  }

  /** The length of the trailing run of whitespace. */
  function TrailingSpace(s: string): (n: nat)
    ensures n <= |s|
    ensures AllSpace(s[|s| - n..])
    ensures n < |s| ==> !IsSpace(s[|s| - n - 1])
  {
    if s == [] || !IsSpace(s[|s| - 1]) then
      0
    else
      var init := s[..|s| - 1];
      var n := 1 + TrailingSpace(init);
      assert forall j :: |s| - n <= j < |s| - 1 ==> s[j] == init[j];
      n
  }

  /** `s.strip()`: `s` without its leading and trailing whitespace. */
  function Strip(s: string): (r: string)
    ensures AllSpace(s) <==> r == []
    ensures r != [] ==> !IsSpace(r[0]) && !IsSpace(r[|r| - 1])
    ensures LeadingSpace(s) + |r| <= |s|
    ensures r == s[LeadingSpace(s)..LeadingSpace(s) + |r|]
    ensures AllSpace(s[LeadingSpace(s) + |r|..])
  {
    var a := LeadingSpace(s);
    if a == |s| then
      assert s[..a] == s;
      []
    else
      var t := TrailingSpace(s);
      assert t < |s| - a by {
        assert forall j :: |s| - t <= j < |s| ==> IsSpace(s[j]) by {
          assert forall j :: |s| - t <= j < |s| ==> s[j] == s[|s| - t..][j - (|s| - t)];
        }
      }
      assert !AllSpace(s) by {
        assert !IsSpace(s[a]);
      }
      s[a..|s| - t]
  }

  /** Stripping twice is stripping once. */
  lemma StripIdempotent(s: string)
    ensures Strip(Strip(s)) == Strip(s)
  {
  }
}

=== FILE: values.dfy ===
/** The dual-valued enum member `Values`: an integer code paired with a string
    label, compared against bare ints, bare strings or other `Values`, and
    constructed under a process-wide uniqueness check on the integer half. */
module EnumValues {
  import opened Wrappers

  /** One enum member, with the `.int` and `.str` attributes the tests read. */
  datatype Values = Values(intForm: int, strForm: string)

  /** The right-hand side of a comparison: the three operand kinds the
      tests compare a `Values` with. */
  datatype Operand = IntOperand(n: int) | StrOperand(text: string) | ValuesOperand(other: Values)

  /** The four ordering operators. */
  datatype Order = Lt | Le | Gt | Ge

  datatype ValuesError =
    | DuplicateValue(dup: int)   // ValueError: the integer is already in use
    | UnorderableOperand          // TypeError: ordering against a non-int

  /** `Values.__eq__`: each operand kind is matched against its own half;
      another `Values` must match on both halves. */
  function Equals(v: Values, o: Operand): (b: bool)
    ensures o.ValuesOperand? ==> (b <==> v == o.other)
    ensures o.IntOperand? ==> (b <==> Values(o.n, v.strForm) == v)
    ensures o.StrOperand? ==> (b <==> Values(v.intForm, o.text) == v)
  {
    match o
    case IntOperand(n) => v.intForm == n
    case StrOperand(t) => v.strForm == t
    case ValuesOperand(w) => v.intForm == w.intForm && v.strForm == w.strForm
  }

  /** `Values.__ne__`. */
  function NotEquals(v: Values, o: Operand): (b: bool)
    ensures o.ValuesOperand? ==> (b <==> v != o.other)
    ensures o.IntOperand? ==> (b <==> v.intForm != o.n)
    ensures o.StrOperand? ==> (b <==> v.strForm != o.text)
  {
    !Equals(v, o)
  }

  /** `o in v`: containment follows the equality rule. */
  function Contains(v: Values, o: Operand): (b: bool)
    ensures o.ValuesOperand? ==> (b <==> v == o.other)
    ensures o.IntOperand? ==> (b <==> v.intForm == o.n)
    ensures o.StrOperand? ==> (b <==> v.strForm == o.text)
  {
    Equals(v, o)
  }

  /** Integer comparison by operator. */
  predicate Holds(a: int, op: Order, b: int)
  {
    match op
    case Lt => a < b
    case Le => a <= b
    case Gt => a > b
    case Ge => a >= b
  }

  /** The operator Python tries when the left operand declines: `a < b`
      becomes `b > a`, and so on. */
  function Reflect(op: Order): (r: Order)
    ensures forall a: int, b: int :: Holds(a, op, b) <==> Holds(b, r, a)
  {
    match op
    case Lt => Gt
    case Le => Ge
    case Gt => Lt
    case Ge => Le
  }

  /** `v < o`, `v <= o`, `v > o`, `v >= o`: defined against integers only,
      on the integer half; any other operand is a type error. */
  function Compare(v: Values, op: Order, o: Operand): (r: Result<bool, ValuesError>)
    ensures o.IntOperand? <==> r.Success?
    ensures o.IntOperand? ==> r == Success(Holds(v.intForm, op, o.n))
    ensures r.Failure? ==> r.error == UnorderableOperand
  {
    match o
    case IntOperand(n) => Success(Holds(v.intForm, op, n))
    case _ => Failure(UnorderableOperand)
  }

  /** `n < v` and friends with a bare int on the left: `int` cannot compare
      with a `Values`, so Python evaluates the reflected operator on `v`. */
  function CompareInt(n: int, op: Order, v: Values): (r: Result<bool, ValuesError>)
    ensures r == Success(Holds(n, op, v.intForm))
  {
    Compare(v, Reflect(op), IntOperand(n))
  }

  /** `int(v)`. */
  function ToInt(v: Values): (n: int)
    ensures Equals(v, IntOperand(n))
  {
    v.intForm
  }

  /** `str(v)`. */
  function ToStr(v: Values): (s: string)
    ensures Equals(v, StrOperand(s))
  {
    v.strForm
  }

  /** The conversions recover the pair, and each converted half is equal to
      the value it came from. */
  lemma ConversionRoundTrip(v: Values)
    ensures Values(ToInt(v), ToStr(v)) == v
    ensures Equals(v, IntOperand(ToInt(v))) && Equals(v, StrOperand(ToStr(v)))
    ensures Contains(v, IntOperand(ToInt(v))) && Contains(v, StrOperand(ToStr(v)))
  {
  }

  /** Equality between two `Values` is Dafny's structural equality, so it is
      reflexive, symmetric and transitive. */
  lemma ValuesEqualityIsStructural(v: Values, w: Values)
    ensures Equals(v, ValuesOperand(w)) <==> v == w
    ensures Equals(v, ValuesOperand(w)) <==> Equals(w, ValuesOperand(v))
    ensures NotEquals(v, ValuesOperand(w)) <==> v != w
  {
  }

  /** Equality with a `Values` operand is the conjunction of equality with
      each of its halves: a mismatch on either half gives inequality. */
  lemma ValuesEqualityByHalves(v: Values, w: Values)
    ensures Equals(v, ValuesOperand(w))
        <==> Equals(v, IntOperand(w.intForm)) && Equals(v, StrOperand(w.strForm))
    ensures NotEquals(v, ValuesOperand(w))
        <==> NotEquals(v, IntOperand(w.intForm)) || NotEquals(v, StrOperand(w.strForm))
    ensures Contains(v, ValuesOperand(w)) <==> Equals(v, ValuesOperand(w))
    ensures Contains(v, IntOperand(w.intForm)) <==> Equals(v, IntOperand(w.intForm))
    ensures Contains(v, StrOperand(w.strForm)) <==> Equals(v, StrOperand(w.strForm))
  {
  }

  /** Against an integer, exactly one of `v < n`, `v == n`, `v > n` holds,
      and `<=`/`>=` are the strict order or equality. */
  lemma OrderingAgreesWithEquality(v: Values, n: int)
    ensures Compare(v, Le, IntOperand(n)) == Success(Compare(v, Lt, IntOperand(n)).value || Equals(v, IntOperand(n)))
    ensures Compare(v, Ge, IntOperand(n)) == Success(Compare(v, Gt, IntOperand(n)).value || Equals(v, IntOperand(n)))
    ensures (Compare(v, Lt, IntOperand(n)).value && !Equals(v, IntOperand(n)) && !Compare(v, Gt, IntOperand(n)).value)
         || (!Compare(v, Lt, IntOperand(n)).value && Equals(v, IntOperand(n)) && !Compare(v, Gt, IntOperand(n)).value)
         || (!Compare(v, Lt, IntOperand(n)).value && !Equals(v, IntOperand(n)) && Compare(v, Gt, IntOperand(n)).value)
  {
  }

  /** A bare int on the left agrees with the mirrored comparison with the
      `Values` on the left, and the non-strict orders are the strict order
      or equality. */
  lemma ReflectedComparisonAgrees(n: int, v: Values)
    ensures CompareInt(n, Lt, v).value <==> Compare(v, Gt, IntOperand(n)).value
    ensures CompareInt(n, Gt, v).value <==> Compare(v, Lt, IntOperand(n)).value
    ensures CompareInt(n, Le, v).value <==> CompareInt(n, Lt, v).value || Equals(v, IntOperand(n))
    ensures CompareInt(n, Ge, v).value <==> CompareInt(n, Gt, v).value || Equals(v, IntOperand(n))
    ensures CompareInt(n, Le, v).value <==> !CompareInt(n, Gt, v).value
  {
  }

  /** The concrete comparisons the unit tests assert. */
  lemma UnitTestComparisons()
    ensures Equals(Values(1, "A"), ValuesOperand(Values(1, "A")))
    ensures Equals(Values(1, "A"), StrOperand("A")) && Equals(Values(1, "A"), IntOperand(1))
    ensures NotEquals(Values(1, "A"), ValuesOperand(Values(2, "B")))
    ensures NotEquals(Values(1, "A"), StrOperand("B")) && NotEquals(Values(1, "A"), IntOperand(2))
    ensures CompareInt(2, Gt, Values(1, "A")) == Success(true)
    ensures CompareInt(1, Ge, Values(1, "1")) == Success(true)
    ensures CompareInt(2, Ge, Values(1, "A")) == Success(true)
    ensures CompareInt(0, Lt, Values(1, "A")) == Success(true)
    ensures CompareInt(0, Le, Values(1, "A")) == Success(true)
    ensures CompareInt(1, Le, Values(1, "A")) == Success(true)
    ensures Contains(Values(1, "A"), IntOperand(1)) && Contains(Values(1, "A"), StrOperand("A"))
    ensures Contains(Values(1, "A"), ValuesOperand(Values(1, "A")))
    ensures ToInt(Values(1, "A")) == 1 && ToStr(Values(1, "A")) == "A"
  {
  }

  // ---------------------------------------------------------------------
  // Construction under the uniqueness check
  // ---------------------------------------------------------------------

  /** The class-level state every construction reads and updates: the
      integers seen so far and the `check_uniqueness` flag. */
  datatype UniquenessState = UniquenessState(seen: set<int>, checkUniqueness: bool)

  /** The state at import time: nothing seen, checking on. */
  const InitialState := UniquenessState({}, true)

  /** `Values(i, s)`: fails with ValueError, leaving the state as it was,
      when checking is on and `i` is already in use; otherwise records `i`
      (whether or not checking is on) and returns the pair. */
  function NewValues(st: UniquenessState, i: int, s: string): (out: (UniquenessState, Result<Values, ValuesError>))
    ensures out.1.Failure? <==> st.checkUniqueness && i in st.seen
    ensures out.1.Failure? ==> out.0 == st && out.1.error == DuplicateValue(i)
    ensures out.1.Success? ==>
              out.1.value == Values(i, s) && out.0 == UniquenessState(st.seen + {i}, st.checkUniqueness)
  {
    if st.checkUniqueness && i in st.seen then
      (st, Failure(DuplicateValue(i)))
    else
      (st.(seen := st.seen + {i}), Success(Values(i, s)))
  }

  /** No two positions of `xs` hold the same integer. */
  ghost predicate Distinct(xs: seq<int>)
  {
    forall a, b :: 0 <= a < b < |xs| ==> xs[a] != xs[b]
  }

  /** The integer halves of a batch of constructor arguments. */
  function IntsOf(args: seq<(int, string)>): (r: seq<int>)
    ensures |r| == |args|
    ensures forall k :: 0 <= k < |args| ==> r[k] == args[k].0
  {
    if args == [] then [] else IntsOf(args[..|args| - 1]) + [args[|args| - 1].0]
  }

  /** Argument `k` of a batch repeats an integer already in use when it
      comes: one seen before the batch, or one of an earlier argument. */
  ghost predicate Clashes(seen: set<int>, args: seq<(int, string)>, k: int)
    requires 0 <= k < |args|
  {
    args[k].0 in seen || exists i :: 0 <= i < k && args[i].0 == args[k].0
  }

  /** The integers of the first `j` arguments. */
  ghost function IntsBefore(args: seq<(int, string)>, j: int): set<int>
    requires 0 <= j <= |args|
  {
    set k | 0 <= k < j :: args[k].0
  }

  /** Dropping the last argument changes neither which earlier arguments
      clash nor the integers before them. */
  lemma ClashesOfPrefix(seen: set<int>, args: seq<(int, string)>)
    requires args != []
    ensures forall k :: 0 <= k < |args| - 1 ==>
              (Clashes(seen, args[..|args| - 1], k) <==> Clashes(seen, args, k))
    ensures forall j :: 0 <= j <= |args| - 1 ==> IntsBefore(args[..|args| - 1], j) == IntsBefore(args, j)
  {
  }

  /** Constructs `Values(i, s)` for each argument pair in turn, stopping at
      the first ValueError as a module body would: the failing argument is
      the first one that clashes, and only the arguments before it have
      been recorded. */
  function NewValuesAll(st: UniquenessState, args: seq<(int, string)>): (out: (UniquenessState, Result<seq<Values>, ValuesError>))
    ensures out.0.checkUniqueness == st.checkUniqueness
    ensures st.seen <= out.0.seen
    ensures out.1.Success? ==> out.0.seen == st.seen + IntsBefore(args, |args|)
    ensures out.1.Success? ==> |out.1.value| == |args|
    ensures out.1.Success? ==>
              forall k :: 0 <= k < |args| ==> out.1.value[k] == Values(args[k].0, args[k].1)
    ensures out.1.Success? && st.checkUniqueness ==>
              forall k :: 0 <= k < |args| ==> !Clashes(st.seen, args, k)
    ensures out.1.Failure? ==>
              && st.checkUniqueness
              && exists j :: && 0 <= j < |args|
                             && Clashes(st.seen, args, j)
                             && (forall k :: 0 <= k < j ==> !Clashes(st.seen, args, k))
                             && out.1.error == DuplicateValue(args[j].0)
                             && out.0.seen == st.seen + IntsBefore(args, j)
    decreases |args|
  {
    if args == [] then
      (st, Success([]))
    else
      var init := args[..|args| - 1];
      var (st1, prefix) := NewValuesAll(st, init);
      ClashesOfPrefix(st.seen, args);
      if prefix.Failure? then
        (st1, Failure(prefix.error))
      else
        var last := args[|args| - 1];
        var (st2, v) := NewValues(st1, last.0, last.1);
        assert forall i :: 0 <= i < |init| ==> init[i] == args[i];
        if v.Failure? then
          assert Clashes(st.seen, args, |args| - 1);
          (st2, Failure(v.error))
        else
          assert IntsBefore(args, |args|) == IntsBefore(args, |args| - 1) + {last.0};
          (st2, Success(prefix.value + [v.value]))
  }

  /** With checking on, a batch constructs without error exactly when its
      integers are pairwise distinct and none was in use before; with
      checking off it always succeeds. */
  lemma {:induction false} NewValuesAllSucceedsIff(st: UniquenessState, args: seq<(int, string)>)
    ensures NewValuesAll(st, args).1.Success? <==>
              (!st.checkUniqueness || (Distinct(IntsOf(args)) && forall k :: 0 <= k < |args| ==> args[k].0 !in st.seen))
    decreases |args|
  {
    if args != [] {
      var init := args[..|args| - 1];
      var last := args[|args| - 1];
      NewValuesAllSucceedsIff(st, init);
      assert IntsOf(args) == IntsOf(init) + [last.0];
      var okAll := Distinct(IntsOf(args)) && forall k :: 0 <= k < |args| ==> args[k].0 !in st.seen;
      var okInit := Distinct(IntsOf(init)) && forall k :: 0 <= k < |init| ==> init[k].0 !in st.seen;
      if st.checkUniqueness {
        if okAll {
          assert okInit by {
            forall a, b | 0 <= a < b < |init| ensures IntsOf(init)[a] != IntsOf(init)[b] {
              assert IntsOf(args)[a] == IntsOf(init)[a] && IntsOf(args)[b] == IntsOf(init)[b];
            }
            forall k | 0 <= k < |init| ensures init[k].0 !in st.seen {
              assert init[k] == args[k];
            }
          }
          var st1 := NewValuesAll(st, init).0;
          assert last.0 !in st1.seen by {
            forall k | 0 <= k < |init| ensures init[k].0 != last.0 {
              assert IntsOf(args)[k] == init[k].0;
              assert IntsOf(args)[|args| - 1] == last.0;
            }
            assert last.0 !in st.seen;
          }
        } else if okInit {
          var st1 := NewValuesAll(st, init).0;
          if last.0 !in st.seen {
            assert forall x :: 0 <= x < |init| ==> IntsOf(init)[x] == IntsOf(args)[x];
            var a, b :| 0 <= a < b < |args| && IntsOf(args)[a] == IntsOf(args)[b];
            assert b == |args| - 1;
            assert init[a].0 == last.0;
          } else {
            assert last.0 in st1.seen;
          }
        }
      }
    }
  }

  /** The unit test: with checking off `Values(1, "A")` still records 1, so
      once checking is turned back on a second `Values(1, "A")` is refused
      and the state is left untouched. */
  lemma UniquenessScenario()
    ensures var (st1, r1) := NewValues(UniquenessState({}, false), 1, "A");
            && r1 == Success(Values(1, "A"))
            && 1 in st1.seen
            && var st2 := st1.(checkUniqueness := true);
               NewValues(st2, 1, "A") == (st2, Failure(DuplicateValue(1)))
  {
  }
}

=== FILE: wrappers.dfy ===
/** Option and Result, the error-carrying datatypes the rest of the model
    uses in place of Python's `None` and raised exceptions. */
module Wrappers {

  datatype Option<+T> = None | Some(value: T)

  /** `Failure` stands for a raised exception; `error` names which one. */
  datatype Result<+R, +E> = Success(value: R) | Failure(error: E)
}
